=== FILE: README.md ===
# dcmax-org user accounts, modelled in Dafny

This project models the user-account core of the dcmax-org web backend: the
`User` entity (its fields, constructor, getters and setters, role and
field-position membership, and the bean-validation constraints on its
fields), the real user service `UserServiceImpl` (principal loading,
registration, credential checking, the security-context predicates) and the
stand-in service `UserServiceStubImpl`.

The framework pieces are abstracted as values:

- the `users` table is a finite map from id to `User` plus the next IDENTITY
  value (`UserStore.Store`); its `save` refuses a row that would break the
  `unique` constraints on username and email, so uniqueness is a proved
  invariant of every reachable table (`UserStore.Valid`);
- the password encoder is a pair of arbitrary functions `encode` and
  `matches` (`Security.PasswordEncoder`); the law that a password matches its
  own encoding is an explicit hypothesis (`AcceptsOwnEncoding`) of the lemmas
  that need it;
- the thread-local security context is a value passed into the predicates
  and returned by `authenticate(User)`;
- the clock is a parameter (`now`, or one instant per clock reading), and the Unicode letter class `\p{L}` of the
  username pattern is a parameter `isLetter`.

Modules follow the source: `Users` for models/User.java, `UserServiceImpl`
and `UserServiceStub` for the two services, with `UserStore` (the
repository), `Security` (Spring Security values), `JavaStrings` (`trim`,
`@NotBlank`, `String.length()` in UTF-16 code units, `Objects.equals`) and
`Wrappers` (`Option` for null, `Result` for a thrown exception) beneath them.
`create` of the real service is `UserServiceImpl.Create`, which returns
`Register`'s result unchanged. The real service's `findById`, `edit` and
`deleteById` are the same single repository calls as the stub's, so they are
modelled once: `UserStore.FindById`, `UserServiceStub.Edit` and
`UserStore.DeleteById`.

The model follows the code as written:

- `register` adds no "Member" role (the grant is commented out), so roles are
  kept as given.
- `authenticate(LoginForm)` looks the user up by username only. An unknown
  username dereferences null, which the model reports as `NullReference`.
- `loadUserByUsername(s)` queries `findByUsernameOrEmail(s, s)`. When one
  user has username `s` and another has email `s`, the single-result query
  fails (`IncorrectResultSize`); the unique constraints do not prevent this.
- After `authenticate(User u)`, the session belongs to the user found by
  `u`'s username *or email*. That user need not have username `u.username`.
- `loadUserByUsername` calls `user.getActive()`, but User.java declares only
  `isActive()`. The model reads the active flag.

## Model

| member | source | states |
|---|---|---|
| `Users.Getter` | src/main/java/dcmax/models/User.java:99-200 | every getter returns a value of its property's Java type |
| `Users.Setter` | src/main/java/dcmax/models/User.java:99-200 | after a setter the matching getter returns the value set, and every other property is unchanged |
| `Users.NewUser` | src/main/java/dcmax/models/User.java:204-209 | the four-argument constructor sets username, password, email and the active flag; the id, names and phones stay null, both dates are the readings of their own `new Date()` initialisers, and the four associations are empty |
| `Users.HasRole` | src/main/java/dcmax/models/User.java:179-182 | true exactly when some role of the user has that exact (case-sensitive) name |
| `Users.HasFieldPosition` | src/main/java/dcmax/models/User.java:188-192 | true exactly when some field position has that English label or that Chinese label |
| `Users.NewUserHasNoRole` | src/main/java/dcmax/models/User.java:81-85 | a freshly constructed user has no role of any name |
| `Users.NewUserHasNoFieldPosition` | src/main/java/dcmax/models/User.java:87-91 | a freshly constructed user has no field position under any label |
| `Users.ValidFor` | src/main/java/dcmax/models/User.java:33-49 | for each validation group, valid exactly when every modelled constraint listing that group (all but `@Email`) holds: for create, a username with a character above U+0020 made only of letters, digits, '.', '_', '-' and space, a password of 6 to 80 UTF-16 units with a character above U+0020, and an email with a character above U+0020; for change-email the email part; for change-password the password part; the profile group has no constraint; a valid password has 3 to 80 characters |
| `JavaStrings.NotBlank` | src/main/java/dcmax/models/User.java:43 | `@NotBlank` holds exactly when some character lies above U+0020 |
| `JavaStrings.Utf16Length` | src/main/java/dcmax/models/User.java:39-42 | the length `@Size` measures is the number of characters plus the number of characters outside the Basic Multilingual Plane; hence it lies between the character count and twice it |
| `JavaStrings.TrimLeading` | src/main/java/dcmax/models/User.java:34 | drops exactly the leading characters at or below U+0020 and keeps the rest of the string |
| `JavaStrings.TrimTrailing` | src/main/java/dcmax/models/User.java:34 | drops exactly the trailing characters at or below U+0020 and keeps the rest of the string |
| `JavaStrings.Trim` | src/main/java/dcmax/models/User.java:48 | the result is an infix of the string, everything before and after it is at or below U+0020, and a non-empty result starts and ends above U+0020 |
| `JavaStrings.ObjectsEquals` | src/main/java/dcmax/services/UserServiceStubImpl.java:54 | null-safe string equality is true exactly when both are null or both hold the same characters |
| `UserStore.Save` | src/main/java/dcmax/models/User.java:29-49 | a save fails with a duplicate-identity error exactly when another row has the same username or email; otherwise it writes one row (the existing one for a known id, a fresh IDENTITY id otherwise), leaves every other row alone and keeps the table valid |
| `UserStore.FindById` | src/main/java/dcmax/services/UserServiceStubImpl.java:23-27 | returns a record exactly when the id is stored, and it is the stored row, which carries that id |
| `UserStore.DeleteById` | src/main/java/dcmax/services/UserServiceStubImpl.java:41-45 | removes exactly the row with that id, leaves the next IDENTITY value where it was (so the id is never reused) and keeps the table valid; an absent id raises the empty-result error |
| `UserStore.FindByUsername` | src/main/java/dcmax/services/UserServiceImpl.java:76-78 | returns a record exactly when a stored user has that username, and it is that stored row |
| `UserStore.FindByEmail` | src/main/java/dcmax/services/UserServiceImpl.java:86-88 | returns a record exactly when a stored user has that email, and it is that stored row |
| `UserStore.FindByUsernameOrEmail` | src/main/java/dcmax/services/UserServiceImpl.java:46 | no match exactly when no user has the name as username or email; not unique exactly when two different users match |
| `UserStore.FindByUsernameOfStored` | src/main/java/dcmax/models/User.java:33-36 | with unique usernames, looking up a stored user's username finds that user |
| `UserServiceImpl.GrantedAuthorities` | src/main/java/dcmax/services/UserServiceImpl.java:51-54 | the authority list holds each role's name exactly once and nothing else |
| `UserServiceImpl.LoadUserByUsername` | src/main/java/dcmax/services/UserServiceImpl.java:45-58 | fails with "no such user" exactly when no user has the name as username or email; otherwise the principal carries the found user's username, stored password, active flag and role names |
| `UserServiceImpl.UsernameExists` | src/main/java/dcmax/services/UserServiceImpl.java:81-83 | true exactly when some stored user has that username |
| `UserServiceImpl.UserEmailExists` | src/main/java/dcmax/services/UserServiceImpl.java:91-93 | true exactly when some stored user has that email |
| `UserServiceImpl.Register` | src/main/java/dcmax/services/UserServiceImpl.java:101-112 | on success the saved record has the encoded password, is active, has creation time `now`, keeps the roles and every other property as given, is the row stored under its id, and every other row is unchanged; it fails with the duplicate-identity error exactly when the username or email is taken by another row |
| `UserServiceImpl.Create` | src/main/java/dcmax/services/UserServiceImpl.java:96-98 | `create` gives exactly the result of `register` |
| `UserServiceImpl.AuthenticateLogin` | src/main/java/dcmax/services/UserServiceImpl.java:134-137 | fails on null exactly when no user has the submitted username (email is not consulted); otherwise returns whether the encoder matches the submitted password against that user's stored password |
| `UserServiceImpl.IsAuthenticated` | src/main/java/dcmax/services/UserServiceImpl.java:149-155 | false for no authentication and for the anonymous token; for a username-password token, equal to its authenticated flag |
| `UserServiceImpl.CurrentUser` | src/main/java/dcmax/services/UserServiceImpl.java:184-193 | null when not authenticated; otherwise the stored user whose username is the principal's name, read from the current table |
| `UserServiceImpl.IsAdmin` | src/main/java/dcmax/services/UserServiceImpl.java:170-174 | true exactly when the session is authenticated and the stored user with the principal's name holds the role "ADMIN" |
| `UserServiceImpl.IsEventOrganizer` | src/main/java/dcmax/services/UserServiceImpl.java:177-181 | true exactly when the session is authenticated and the stored user with the principal's name holds the role "ORGANIZER" |
| `UserServiceImpl.Authenticate` | src/main/java/dcmax/services/UserServiceImpl.java:140-146 | on failure the context is unchanged and "no such user" is raised exactly when nobody matches; on success the context holds an authenticated token with no credentials whose principal carries the loaded user's username, stored password, active flag and role names, and whose authorities are the principal's; the session's current user is the loaded user, and the admin and organizer checks agree with the authorities granted |
| `UserServiceImpl.RegisterThenLogin` | src/main/java/dcmax/services/UserServiceImpl.java:101-137 | if the encoder accepts its own encodings, a just-registered user logs in with the password they registered |
| `UserServiceImpl.RegisterThenWrongPassword` | src/main/java/dcmax/services/UserServiceImpl.java:101-137 | if no password matches another's encoding, a just-registered user who submits any other password is refused |
| `UserServiceImpl.RegisterHidesPlaintext` | src/main/java/dcmax/services/UserServiceImpl.java:102 | if the encoder never returns its input, the stored password differs from the submitted one |
| `UserServiceImpl.FirstRegistrationSucceeds` | src/main/java/dcmax/services/UserServiceImpl.java:101-112 | on an empty table every registration succeeds, and the new row alone takes the first IDENTITY id, 1 |
| `UserServiceImpl.RegisterRejectsTakenIdentity` | src/main/java/dcmax/services/UserServiceImpl.java:101-112 | registering a new user with a taken username or email fails with the duplicate-identity error |
| `UserServiceImpl.CurrentUserSeesLatestSave` | src/main/java/dcmax/services/UserServiceImpl.java:184-193 | after the signed-in user's row is saved anew, the current user is the saved record |
| `UserServiceImpl.AnonymousSessionHasNoPrivileges` | src/main/java/dcmax/services/UserServiceImpl.java:149-181 | with no authentication or an anonymous token there is no current user, no admin and no organizer |
| `UserServiceStub.Authenticate` | src/main/java/dcmax/services/UserServiceStubImpl.java:50-55 | true exactly when the username equals the password, both null counting as equal |
| `UserServiceStub.TwoPasswordMatch` | src/main/java/dcmax/services/UserServiceStubImpl.java:57-62 | true exactly when the two passwords are equal, both null counting as equal |
| `UserServiceStub.TwoPasswordMatchIsEquivalence` | src/main/java/dcmax/services/UserServiceStubImpl.java:58-62 | the password check is reflexive, symmetric and transitive |
| `UserServiceStub.RegisterUser` | src/main/java/dcmax/services/UserServiceStubImpl.java:47-48 | the table, the next IDENTITY value included, is left exactly as it was: no row appears, disappears or changes |
| `UserServiceStub.Create` | src/main/java/dcmax/services/UserServiceStubImpl.java:29-33 | saves the user exactly as given apart from the assigned id (no encoding, no forced activation), leaves every other row unchanged, and fails with the duplicate-identity error exactly when the username or email is taken by another row |
| `UserServiceStub.Edit` | src/main/java/dcmax/services/UserServiceStubImpl.java:35-39 | behaves exactly as `create` |
| `UserServiceStub.CreateVersusRegister` | src/main/java/dcmax/services/UserServiceStubImpl.java:29-33 | the stub's create and the real register succeed on the same inputs and write the same row; the records differ only in the encoded password, the active flag and the creation time |

## Left out

- `update` (UserServiceImpl.java:124-131): its effect is whatever Apache Commons `BeanUtils.copyProperties` does by reflection, which is not part of this model.
- `findAll`, `getUserList` and `deleteUser(username)`: they return or delete whatever the repository's queries select, and those queries are not part of this model.
- EventRepository.java: a framework-generated paged query with no domain logic.
- Register: `register` updates the caller's `User` object in place (password, active flag, creation time, and the id when a new row is persisted). The model returns the updated record instead of mutating an argument; for a new user, that record is what the caller's object becomes. When the save fails with the duplicate-identity error, the caller's object has already been given the encoded password, the active flag and the creation time (UserServiceImpl.java:102-109); the model's `Failure` carries only the error and does not represent that changed argument.
- UserServiceStub.Create: `create` and `edit` pass the caller's object to `save`, which sets the generated id on that object in place when a new row is inserted. The model returns the saved record, with its id, instead of mutating the argument.
- UserStore.FindById, UserStore.DeleteById: the source's `Long id` may be null, and Spring Data's `findOne` and `delete` then throw `IllegalArgumentException` (UserServiceStubImpl.java:23-26 and 41-44, UserServiceImpl.java:71-73 and 120-122). The model's id is an `int`, so a null id is not represented.
- The default constructor `User()`: it leaves the non-null columns null, while the model keeps username, password and email as non-null strings.
- UserStore.DeleteById: deleting a user that a post or an event still refers to fails on the foreign key in the database. The model does not represent that failure, because the post and event tables are not part of this model.
- `toString`: display only.
- Persistence mechanics: cascades, lazy loading, flushing (`save` and `saveAndFlush` are the same here), column lengths, and case-insensitive collations. Lookups compare strings exactly. `posts` and `events` are the `mappedBy` side of their relations (User.java:93-97): `save` does not write them, since the post and event tables own those links. The model keeps the two sets in the stored record as given, so `UserStore.Save`'s one written row stands for the user's own columns and its role and field-position links, not for any post or event.
- The `@Email` syntax check: it is library logic, so only non-blankness of the email is modelled.
- Spring Security's own constructor checks: `userdetails.User` sorts and de-duplicates authorities and rejects an empty username, and `SimpleGrantedAuthority` rejects a role name that is empty or only whitespace. The model keeps the authority list as the loop builds it.
- Password hashing: `encode` and `matches` are arbitrary functions, and their laws are hypotheses of the lemmas that use them. `encode` is a function, so a salted encoder's different hashes of one password are not represented.
- Logging out and the end-of-request clearing of the context: the service has no such operation.
- Role.java, FieldPosition.java, Post.java and Event.java are not part of this model. A role is its name, a field position its two labels, and a post or an event its id. A null label would make `hasFieldPosition` throw, and the model does not represent that case.

=== FILE: java_strings.dfy ===
/** The parts of `java.lang.String` and `java.util.Objects` that the user
    model relies on.  A Java string is modelled as a sequence of Unicode
    scalar values; where Java counts UTF-16 code units the model says so. */
module JavaStrings {
  import opened Wrappers

  /** `String.trim` strips every character at or below U+0020. */
  predicate IsTrimmable(c: char) {
    c <= ' '
  }

  /** The string left after `String.trim` drops its leading trimmable characters. */
  function TrimLeading(s: string): (r: string)
    ensures |r| <= |s| && r == s[|s| - |r|..]
    ensures forall i :: 0 <= i < |s| - |r| ==> IsTrimmable(s[i])
    ensures r == [] || !IsTrimmable(r[0])
  {
    if s != [] && IsTrimmable(s[0]) then TrimLeading(s[1..]) else s
  }

  /** The string left after `String.trim` drops its trailing trimmable characters. */
  function TrimTrailing(s: string): (r: string)
    ensures |r| <= |s| && r == s[..|r|]
    ensures forall i :: |r| <= i < |s| ==> IsTrimmable(s[i])
    ensures r == [] || !IsTrimmable(r[|r| - 1])
  {
    if s != [] && IsTrimmable(s[|s| - 1]) then TrimTrailing(s[..|s| - 1]) else s
  }

  /** `r` occurs in `s` starting at index `i`, and every character of `s`
      before or after that occurrence is trimmable. */
  predicate TrimmedAt(r: string, s: string, i: int) {
    && 0 <= i <= |s| - |r| && s[i..i + |r|] == r
    && (forall j :: 0 <= j < i ==> IsTrimmable(s[j]))
    && (forall j :: i + |r| <= j < |s| ==> IsTrimmable(s[j]))
  }

  /** `String.trim`: the longest infix of `s` that starts and ends with a
      non-trimmable character, or the empty string if there is none. */
  function Trim(s: string): (r: string)
    ensures exists i :: TrimmedAt(r, s, i)
    ensures r == [] || (!IsTrimmable(r[0]) && !IsTrimmable(r[|r| - 1]))
  {
    var t := TrimLeading(s);
    var r := TrimTrailing(t);
    assert r == s[|s| - |t|..][..|r|];
    assert TrimmedAt(r, s, |s| - |t|) by {
      forall j | |s| - |t| + |r| <= j < |s|
        ensures IsTrimmable(s[j])
      {
        assert s[j] == t[j - (|s| - |t|)];
      }
    }
    r
  }

  /** Everything `Trim` removes is trimmable: it is empty exactly when every
      character of `s` is at or below U+0020. */
  lemma TrimEmptyIffAllTrimmable(s: string)
    ensures Trim(s) == [] <==> forall i :: 0 <= i < |s| ==> IsTrimmable(s[i])
  {
  }

  /** Hibernate's `@NotBlank`: the value is not null and `trim()` leaves
      something.  The string types of the model are never null. */
  function NotBlank(s: string): (r: bool)
    ensures r <==> exists i :: 0 <= i < |s| && !IsTrimmable(s[i])
  {
    TrimEmptyIffAllTrimmable(s);
    |Trim(s)| > 0
  }

  /** The number of UTF-16 code units Java needs for `c`. */
  function CodeUnits(c: char): nat {
    if c as int > 0xFFFF then 2 else 1
  }

  /** `String.length()`: the number of UTF-16 code units of the string. */
  function Utf16Length(s: string): (n: nat)
    ensures n == |s| + |AstralPositions(s)|
    ensures |s| <= n <= 2 * |s|
    ensures n == |s| <==> forall i :: 0 <= i < |s| ==> s[i] as int <= 0xFFFF
  {
    if s == [] then 0
    else
      AstralPositionsOfTail(s);
      CodeUnits(s[0]) + Utf16Length(s[1..])
  }

  /** The positions of `s` holding a character outside the Basic
      Multilingual Plane, which Java stores as a surrogate pair. */
  function AstralPositions(s: string): set<int> {
    set i | 0 <= i < |s| && s[i] as int > 0xFFFF
  }

  /** The astral positions of `s` from index `lo` on. */
  function AstralFrom(s: string, lo: nat): set<int> {
    set i | lo <= i < |s| && s[i] as int > 0xFFFF
  }

  /** Position `lo` counts once if it is astral, and the rest from `lo + 1`
      on. */
  lemma AstralFromStep(s: string, lo: nat)
    requires lo < |s|
    ensures |AstralFrom(s, lo)| == (if s[lo] as int > 0xFFFF then 1 else 0) + |AstralFrom(s, lo + 1)|
  {
    var here: set<int> := if s[lo] as int > 0xFFFF then {lo} else {};
    assert AstralFrom(s, lo) == here + AstralFrom(s, lo + 1);
  }

  /** Counting astral positions of `s` from `lo` on is counting those of
      its tail from `lo - 1` on. */
  lemma {:induction false} AstralFromTail(s: string, lo: nat)
    requires s != [] && 1 <= lo <= |s|
    ensures |AstralFrom(s, lo)| == |AstralFrom(s[1..], lo - 1)|
    decreases |s| - lo
  {
    if lo < |s| {
      AstralFromTail(s, lo + 1);
      AstralFromStep(s, lo);
      assert s[1..][lo - 1] == s[lo];
      AstralFromStep(s[1..], lo - 1);
    } else {
      assert AstralFrom(s, lo) == {};
      assert AstralFrom(s[1..], lo - 1) == {};
    }
  }

  /** The astral positions of `s` are those of its tail, one further on,
      plus position 0 when the first character is astral. */
  lemma AstralPositionsOfTail(s: string)
    requires s != []
    ensures |AstralPositions(s)| == (if s[0] as int > 0xFFFF then 1 else 0) + |AstralPositions(s[1..])|
  {
    AstralFromTail(s, 1);
    assert AstralPositions(s) == AstralFrom(s, 0);
    assert AstralPositions(s[1..]) == AstralFrom(s[1..], 0);
    assert AstralFrom(s, 0) == (if s[0] as int > 0xFFFF then {0} else {}) + AstralFrom(s, 1);
  }

  /** `java.util.Objects.equals` on two possibly-null strings. */
  function ObjectsEquals(a: Option<string>, b: Option<string>): (r: bool)
    ensures r <==> a == b
  {
    match (a, b)
    case (None, None) => true
    case (Some(x), Some(y)) => x == y  // String.equals compares contents
    case _ => false
  }
}

=== FILE: security.dfy ===
/** The Spring Security values the user service reads and writes, as plain
    data: the `UserDetails` principal, the two kinds of `Authentication`
    token the service distinguishes, the security context that holds one,
    and the password encoder.  The thread-local holder of the context is
    replaced by passing the context in and out explicitly. */
module Security {
  import opened Wrappers

  /** Spring's `userdetails.User` as a principal: username, stored password,
      the four account flags, and the granted authorities' names. */
  datatype UserDetails = UserDetails(
    username: string,
    password: string,
    enabled: bool,
    accountNonExpired: bool,
    credentialsNonExpired: bool,
    accountNonLocked: bool,
    authorities: seq<string>)

  /** An `AnonymousAuthenticationToken`, or a
      `UsernamePasswordAuthenticationToken` carrying a `UserDetails`. */
  datatype Authentication =
    | AnonymousToken(anonymousPrincipal: string)
    | UsernamePasswordToken(principal: UserDetails, credentials: Option<string>,
                            grantedAuthorities: seq<string>, authenticated: bool)

  /** `Authentication.getName()`: the principal's username. */
  function PrincipalName(a: Authentication): string {
    match a
    case AnonymousToken(p) => p
    case UsernamePasswordToken(d, _, _, _) => d.username
  }

  /** A `SecurityContext`: the authentication it holds, or null. */
  datatype SecurityContext = SecurityContext(authentication: Option<Authentication>)

  /** The configured `PasswordEncoder`.  Its hashing is a library call the
      model does not see, so `encode` and `matches` are arbitrary functions. */
  datatype PasswordEncoder = PasswordEncoder(encode: string -> string, matches: (string, string) -> bool)

  /** The encoder law the library promises: a raw password matches its own
      encoding.  Only lemmas that need it assume it. */
  ghost predicate AcceptsOwnEncoding(e: PasswordEncoder) {
    forall raw :: e.matches(raw, e.encode(raw))
  }

  /** The encoding of one password matches no other password. */
  ghost predicate RejectsOtherPasswords(e: PasswordEncoder) {
    forall raw, other :: raw != other ==> !e.matches(other, e.encode(raw))
  }

  /** The encoder never returns its input unchanged. */
  ghost predicate NeverIdentity(e: PasswordEncoder) {
    forall raw :: e.encode(raw) != raw
  }
}

=== FILE: user.dfy ===
/** The `User` entity of models/User.java: its fields, the four-argument
    constructor, the getters and setters, the role and field-position
    membership tests, and the bean-validation constraints declared on its
    fields, each as a plain predicate. */
module Users {
  import opened Wrappers
  import opened JavaStrings

  /** A `java.util.Date`, as milliseconds since the epoch. */
  type Instant = int

  /** Role.java is not part of this model.  A role is known by its name,
      which is all that authorization compares. */
  datatype Role = Role(roleName: string)

  /** FieldPosition.java is not part of this model.  A field position
      carries an English and a Chinese name. */
  datatype FieldPosition = FieldPosition(fieldPositionEng: string, fieldPositionChn: string)

  /** Post.java and Event.java are not part of this model: a post or an
      event is known only by its identifier. */
  datatype Post = Post(postId: int)
  datatype Event = Event(eventId: int)

  /** A row of the `users` table.  The columns declared `nullable = false`
      are plain values; the nullable ones, and the generated id, are
      `Option`s. */
  datatype User = User(
    id: Option<int>,
    username: string,
    password: string,
    email: string,
    firstNameEng: Option<string>,
    middleNameEng: Option<string>,
    lastNameEng: Option<string>,
    firstNameChn: Option<string>,
    lastNameChn: Option<string>,
    cellPhoneNumber: Option<string>,
    homePhoneNumber: Option<string>,
    isActive: bool,
    createTime: Instant,
    lastUpdatedTime: Instant,
    roles: set<Role>,
    fieldPositions: set<FieldPosition>,
    posts: set<Post>,
    events: set<Event>)

  /** The properties a `User` exposes through its getters and setters. */
  datatype Field =
    | Id | Username | Password | Email
    | FirstNameEng | MiddleNameEng | LastNameEng | FirstNameChn | LastNameChn
    | CellPhoneNumber | HomePhoneNumber
    | Active | CreateTime | LastUpdateTime
    | Roles | FieldPositions | Posts | Events

  /** The value of one property, tagged with its Java type. */
  datatype Value =
    | Key(key: Option<int>)
    | Text(text: string)
    | OptionalText(optionalText: Option<string>)
    | Flag(flag: bool)
    | Time(time: Instant)
    | RoleSet(roleSet: set<Role>)
    | PositionSet(positionSet: set<FieldPosition>)
    | PostSet(postSet: set<Post>)
    | EventSet(eventSet: set<Event>)

  /** `v` has the Java type of property `f`. */
  predicate Fits(f: Field, v: Value) {
    match f
    case Id => v.Key?
    case Username | Password | Email => v.Text?
    case FirstNameEng | MiddleNameEng | LastNameEng | FirstNameChn | LastNameChn
      | CellPhoneNumber | HomePhoneNumber => v.OptionalText?
    case Active => v.Flag?
    case CreateTime | LastUpdateTime => v.Time?
    case Roles => v.RoleSet?
    case FieldPositions => v.PositionSet?
    case Posts => v.PostSet?
    case Events => v.EventSet?
  }

  /** The getters: `getId`, `getUsername`, …, `isActive`, …, `getEvents`. */
  function Getter(u: User, f: Field): (v: Value)
    ensures Fits(f, v)
  {
    match f
    case Id => Key(u.id)
    case Username => Text(u.username)
    case Password => Text(u.password)
    case Email => Text(u.email)
    case FirstNameEng => OptionalText(u.firstNameEng)
    case MiddleNameEng => OptionalText(u.middleNameEng)
    case LastNameEng => OptionalText(u.lastNameEng)
    case FirstNameChn => OptionalText(u.firstNameChn)
    case LastNameChn => OptionalText(u.lastNameChn)
    case CellPhoneNumber => OptionalText(u.cellPhoneNumber)
    case HomePhoneNumber => OptionalText(u.homePhoneNumber)
    case Active => Flag(u.isActive)
    case CreateTime => Time(u.createTime)
    case LastUpdateTime => Time(u.lastUpdatedTime)
    case Roles => RoleSet(u.roles)
    case FieldPositions => PositionSet(u.fieldPositions)
    case Posts => PostSet(u.posts)
    case Events => EventSet(u.events)
  }

  /** The setters: `setId`, `setUsername`, …, `setActive`, …, `setEvents`.
      The matching getter returns the value just set and no other property
      changes. */
  function Setter(u: User, f: Field, v: Value): (r: User)
    requires Fits(f, v)
    ensures Getter(r, f) == v
    ensures forall g :: g != f ==> Getter(r, g) == Getter(u, g)
  {
    match f
    case Id => u.(id := v.key)
    case Username => u.(username := v.text)
    case Password => u.(password := v.text)
    case Email => u.(email := v.text)
    case FirstNameEng => u.(firstNameEng := v.optionalText)
    case MiddleNameEng => u.(middleNameEng := v.optionalText)
    case LastNameEng => u.(lastNameEng := v.optionalText)
    case FirstNameChn => u.(firstNameChn := v.optionalText)
    case LastNameChn => u.(lastNameChn := v.optionalText)
    case CellPhoneNumber => u.(cellPhoneNumber := v.optionalText)
    case HomePhoneNumber => u.(homePhoneNumber := v.optionalText)
    case Active => u.(isActive := v.flag)
    case CreateTime => u.(createTime := v.time)
    case LastUpdateTime => u.(lastUpdatedTime := v.time)
    case Roles => u.(roles := v.roleSet)
    case FieldPositions => u.(fieldPositions := v.positionSet)
    case Posts => u.(posts := v.postSet)
    case Events => u.(events := v.eventSet)
  }

  /** What a property holds once the field initialisers have run: null for
      the id and the optional strings, false for the flag, the clock readings
      of the two `new Date()` initialisers for the dates, empty sets for the
      associations. */
  function Initial(f: Field, createdAt: Instant, updatedAt: Instant): (v: Value)
    requires f !in {Username, Password, Email}
    ensures Fits(f, v)
  {
    match f
    case Id => Key(None)
    case Active => Flag(false)
    case CreateTime => Time(createdAt)
    case LastUpdateTime => Time(updatedAt)
    case Roles => RoleSet({})
    case FieldPositions => PositionSet({})
    case Posts => PostSet({})
    case Events => EventSet({})
    case _ => OptionalText(None)
  }

  /** The constructor `User(username, password, email, activeStatus)`, run
      when the two date initialisers read the clock as `createdAt` and
      `updatedAt`: it sets exactly those four properties; every other one
      keeps its initial value. */
  function NewUser(username: string, password: string, email: string, activeStatus: bool, createdAt: Instant, updatedAt: Instant): (r: User)
    ensures Getter(r, Username) == Text(username)
    ensures Getter(r, Password) == Text(password)
    ensures Getter(r, Email) == Text(email)
    ensures Getter(r, Active) == Flag(activeStatus)
    ensures forall f :: f !in {Username, Password, Email, Active} ==> Getter(r, f) == Initial(f, createdAt, updatedAt)
  {
    User(None, username, password, email, None, None, None, None, None, None, None,
         activeStatus, createdAt, updatedAt, {}, {}, {}, {})
  }

  /** `hasRole`: some role of the user is named exactly `role`; the
      comparison is `String.equals`, so it is case-sensitive. */
  function HasRole(u: User, role: string): (r: bool)
    ensures r <==> exists x :: x in u.roles && x.roleName == role
  {
    Role(role) in u.roles
  }

  /** The English and the Chinese labels of a set of field positions. */
  function Labels(positions: set<FieldPosition>): set<string> {
    (set p | p in positions :: p.fieldPositionEng) + (set p | p in positions :: p.fieldPositionChn)
  }

  /** `hasFieldPosition`: some field position of the user carries `name`
      as its English or as its Chinese label. */
  function HasFieldPosition(u: User, name: string): (r: bool)
    ensures r <==> exists p :: p in u.fieldPositions && (p.fieldPositionEng == name || p.fieldPositionChn == name)
  {
    name in Labels(u.fieldPositions)
  }

  /** A freshly constructed user has no role, whatever the name asked for. */
  lemma NewUserHasNoRole(username: string, password: string, email: string, activeStatus: bool, createdAt: Instant, updatedAt: Instant, role: string)
    ensures !HasRole(NewUser(username, password, email, activeStatus, createdAt, updatedAt), role)
  {
  }

  /** A freshly constructed user has no field position, whatever the label. */
  lemma NewUserHasNoFieldPosition(username: string, password: string, email: string, activeStatus: bool, createdAt: Instant, updatedAt: Instant, name: string)
    ensures !HasFieldPosition(NewUser(username, password, email, activeStatus, createdAt, updatedAt), name)
  {
  }

  /** The validation groups the constraints of User.java are declared in. */
  datatype ValidationGroup = CreateGroup | ChangeEmailGroup | ChangePasswordGroup | ProfileInfoGroup

  /** One character of the class `[\p{L}0-9\._\- ]`.  Which characters are
      Unicode letters (`\p{L}`) is decided by `isLetter`. */
  predicate UsernameChar(c: char, isLetter: char -> bool) {
    isLetter(c) || ('0' <= c <= '9') || c == '.' || c == '_' || c == '-' || c == ' '
  }

  /** `@Pattern(regexp = "^[\p{L}0-9\._\- ]+$")` on the username: one or
      more characters of the class, and nothing else. */
  predicate MatchesUsernamePattern(s: string, isLetter: char -> bool) {
    |s| > 0 && forall i :: 0 <= i < |s| ==> UsernameChar(s[i], isLetter)
  }

  /** The two `@Size` bounds on the password, measured as Java measures
      `String.length()`. */
  predicate PasswordSizeOk(s: string) {
    6 <= Utf16Length(s) <= 80
  }

  /** A password of acceptable size has between 3 and 80 characters, since
      each takes one or two UTF-16 code units. */
  lemma PasswordSizeBounds(s: string)
    ensures PasswordSizeOk(s) <==> 6 <= |s| + |AstralPositions(s)| <= 80
    ensures PasswordSizeOk(s) ==> 3 <= |s| <= 80
  {
    assert |AstralPositions(s)| <= |s| by {
      assert Utf16Length(s) <= 2 * |s|;
    }
  }

  /** `@NotBlank` in terms of the characters of the string. */
  lemma NotBlankChars(s: string)
    ensures NotBlank(s) <==> exists i :: 0 <= i < |s| && s[i] > ' '
  {
  }

  /** The username pattern, for a non-empty string, in terms of its
      characters. */
  lemma PatternChars(s: string, isLetter: char -> bool)
    requires s != []
    ensures MatchesUsernamePattern(s, isLetter) <==> forall i :: 0 <= i < |s| ==> UsernameChar(s[i], isLetter)
  {
  }

  /** The constraints of the creation group, one by one, in terms of the
      characters of the fields. */
  lemma CreateConstraints(u: User, isLetter: char -> bool)
    ensures NotBlank(u.username) <==> exists i :: 0 <= i < |u.username| && u.username[i] > ' '
    ensures NotBlank(u.username) ==>
      (MatchesUsernamePattern(u.username, isLetter) <==> forall i :: 0 <= i < |u.username| ==> UsernameChar(u.username[i], isLetter))
    ensures PasswordSizeOk(u.password) <==> 6 <= |u.password| + |AstralPositions(u.password)| <= 80
    ensures NotBlank(u.password) <==> exists i :: 0 <= i < |u.password| && u.password[i] > ' '
    ensures NotBlank(u.email) <==> exists i :: 0 <= i < |u.email| && u.email[i] > ' '
  {
    NotBlankChars(u.username);
    if u.username != [] {
      PatternChars(u.username, isLetter);
    }
    PasswordSizeBounds(u.password);
    NotBlankChars(u.password);
    NotBlankChars(u.email);
  }

  /** Whether `u` satisfies every constraint declared for `group`: per
      group, exactly the conjunction of the constraints that list it. */
  function ValidFor(u: User, group: ValidationGroup, isLetter: char -> bool): (r: bool)
    ensures group == CreateGroup ==> (r <==>
      && (exists i :: 0 <= i < |u.username| && u.username[i] > ' ')
      && (forall i :: 0 <= i < |u.username| ==> UsernameChar(u.username[i], isLetter))
      && 6 <= |u.password| + |AstralPositions(u.password)| <= 80
      && (exists i :: 0 <= i < |u.password| && u.password[i] > ' ')
      && (exists i :: 0 <= i < |u.email| && u.email[i] > ' '))
    ensures group == ChangeEmailGroup ==> (r <==> exists i :: 0 <= i < |u.email| && u.email[i] > ' ')
    ensures group == ChangePasswordGroup ==> (r <==>
      && 6 <= |u.password| + |AstralPositions(u.password)| <= 80
      && (exists i :: 0 <= i < |u.password| && u.password[i] > ' '))
    ensures group == ProfileInfoGroup ==> r
    ensures r && group in {CreateGroup, ChangePasswordGroup} ==> 3 <= |u.password| <= 80
  {
    PasswordSizeBounds(u.password);
    match group
    case CreateGroup =>
      CreateConstraints(u, isLetter);
      && NotBlank(u.username) && MatchesUsernamePattern(u.username, isLetter)
      && PasswordSizeOk(u.password) && NotBlank(u.password)
      && NotBlank(u.email)
    case ChangeEmailGroup => NotBlank(u.email)
    case ChangePasswordGroup => PasswordSizeOk(u.password) && NotBlank(u.password)
    case ProfileInfoGroup => true
  }
}

=== FILE: user_service_impl.dfy ===
/** services/UserServiceImpl.java: the user service over the repository,
    the password encoder and the security context.  Each Java method that
    reads the ambient context takes it as a parameter here, and the one that
    sets it returns the new context. */
module UserServiceImpl {
  import opened Wrappers
  import opened Users
  import opened UserStore
  import opened Security

  /** What the service's calls can throw. */
  datatype ServiceError =
    | UsernameNotFound                // "no such user" from loadUserByUsername
    | NullReference                   // a null user is dereferenced
    | DataAccess(cause: DataAccessError)

  /** LoginForm.java is not part of this model: it carries the submitted
      username and password. */
  datatype LoginForm = LoginForm(username: string, password: string)

  /** `auths` lists the names of `roles`, one entry per role, in some order. */
  predicate AuthoritiesOf(auths: seq<string>, roles: set<Role>) {
    && |auths| == |roles|
    && (forall i :: 0 <= i < |auths| ==> Role(auths[i]) in roles)
    && (forall x :: x in roles ==> x.roleName in auths)
    && (forall i, j :: 0 <= i < j < |auths| ==> auths[i] != auths[j])
  }

  /** `d` is the principal loadUserByUsername builds from `u`: its username,
      stored password and active flag, three account flags set, and the
      role names as authorities. */
  predicate DescribesUser(d: UserDetails, u: User) {
    && d.username == u.username
    && d.password == u.password
    && d.enabled == u.isActive
    && d.accountNonExpired && d.credentialsNonExpired && d.accountNonLocked
    && AuthoritiesOf(d.authorities, u.roles)
  }

  /** The loop of loadUserByUsername: one `SimpleGrantedAuthority` per role,
      named after it. */
  method GrantedAuthorities(roles: set<Role>) returns (auths: seq<string>)
    ensures AuthoritiesOf(auths, roles)
  {
    var remaining := roles;
    auths := [];
    while remaining != {}
      invariant remaining <= roles
      invariant |auths| + |remaining| == |roles|
      invariant forall i :: 0 <= i < |auths| ==> Role(auths[i]) in roles - remaining
      invariant forall x :: x in roles - remaining ==> x.roleName in auths
      invariant forall i, j :: 0 <= i < j < |auths| ==> auths[i] != auths[j]
      decreases remaining
    {
      var x :| x in remaining;
      auths := auths + [x.roleName];
      remaining := remaining - {x};
    }
  }

  /** `loadUserByUsername(name)`: the principal of the one user whose
      username or email is `name`.  No such user raises "no such user"; one
      user matching by username and another by email makes the
      single-result query fail. */
  method LoadUserByUsername(s: Store, name: string) returns (r: Result<UserDetails, ServiceError>)
    ensures r == Failure(UsernameNotFound) <==>
      forall k :: k in s.users ==> s.users[k].username != name && s.users[k].email != name
    ensures r == Failure(DataAccess(IncorrectResultSize)) <==> FindByUsernameOrEmail(s, name, name).NotUnique?
    ensures r.Success? <==> FindByUsernameOrEmail(s, name, name).Found?
    ensures r.Success? ==> DescribesUser(r.value, FindByUsernameOrEmail(s, name, name).user)
  {
    match FindByUsernameOrEmail(s, name, name)
    case NoMatch =>
      r := Failure(UsernameNotFound);
    case NotUnique =>
      r := Failure(DataAccess(IncorrectResultSize));
    case Found(u) =>
      var auths := GrantedAuthorities(u.roles);
      r := Success(UserDetails(u.username, u.password, u.isActive, true, true, true, auths));
  }

  /** `findByUsername(name) != null`. */
  function UsernameExists(s: Store, name: string): (r: bool)
    requires Valid(s)
    ensures r <==> exists k :: k in s.users && s.users[k].username == name
  {
    FindByUsername(s, name).Some?
  }

  /** `findByEmail(email) != null`. */
  function UserEmailExists(s: Store, email: string): (r: bool)
    requires Valid(s)
    ensures r <==> exists k :: k in s.users && s.users[k].email == email
  {
    FindByEmail(s, email).Some?
  }

  /** `register(u)`, and `create(u)`, which calls it: the password is
      replaced by its encoding, the user is made active, the creation time
      is set to `now`, and the record is saved.  The "Member" role grant is
      commented out in the source, so the roles stay as given. */
  function Register(s: Store, u: User, encoder: PasswordEncoder, now: Instant): (r: Result<Saved, ServiceError>)
    requires Valid(s)
    ensures r.Failure? <==> Conflicts(s, u, TargetId(s, u))
    ensures r.Failure? ==> r.error == DataAccess(DuplicateIdentity)
    ensures r.Success? ==>
      && Valid(r.value.store)
      && r.value.user.password == encoder.encode(u.password)
      && r.value.user.isActive
      && r.value.user.createTime == now
      && r.value.user.roles == u.roles
      && (forall f :: f !in {Id, Password, Active, CreateTime} ==> Getter(r.value.user, f) == Getter(u, f))
      && r.value.user.id == Some(TargetId(s, u))
      && FindById(r.value.store, TargetId(s, u)) == Some(r.value.user)
      && r.value.store.users.Keys == s.users.Keys + {TargetId(s, u)}
      && (forall j :: j in s.users && j != TargetId(s, u) ==> r.value.store.users[j] == s.users[j])
  {
    var prepared := u.(password := encoder.encode(u.password), isActive := true, createTime := now);
    match Save(s, prepared)
    case Success(saved) => Success(saved)
    case Failure(e) => Failure(DataAccess(e))
  }

  /** `create(u)` delegates to `register(u)`. */
  function Create(s: Store, u: User, encoder: PasswordEncoder, now: Instant): (r: Result<Saved, ServiceError>)
    requires Valid(s)
    ensures r == Register(s, u, encoder, now)
  {
    Register(s, u, encoder, now)
  }

  /** `authenticate(LoginForm)`: looks the user up by username only and asks
      the encoder whether the submitted password matches the stored one.  An
      unknown username dereferences null. */
  function AuthenticateLogin(s: Store, form: LoginForm, encoder: PasswordEncoder): (r: Result<bool, ServiceError>)
    requires Valid(s)
    ensures r.Failure? <==> forall k :: k in s.users ==> s.users[k].username != form.username
    ensures r.Failure? ==> r.error == NullReference
    ensures r.Success? ==>
      exists k :: k in s.users && s.users[k].username == form.username
        && r.value == encoder.matches(form.password, s.users[k].password)
  {
    match FindByUsername(s, form.username)
    case None => Failure(NullReference)
    case Some(u) => Success(encoder.matches(form.password, u.password))
  }

  /** `isAuthenticated()`: the context holds an authentication, it is not
      the anonymous placeholder, and it is marked authenticated. */
  function IsAuthenticated(ctx: SecurityContext): (r: bool)
    ensures r ==> ctx.authentication.Some? && ctx.authentication.value.UsernamePasswordToken?
    ensures ctx.authentication.Some? && ctx.authentication.value.UsernamePasswordToken? ==>
      (r <==> ctx.authentication.value.authenticated)
  {
    match ctx.authentication
    case None => false
    case Some(AnonymousToken(_)) => false
    case Some(token) => token.authenticated
  }

  /** `currentUser()`: null when not authenticated; otherwise a fresh lookup
      of the principal's username in the current table, not the principal
      cached at login. */
  function CurrentUser(ctx: SecurityContext, s: Store): (r: Option<User>)
    requires Valid(s)
    ensures !IsAuthenticated(ctx) ==> r == None
    ensures IsAuthenticated(ctx) ==> var name := PrincipalName(ctx.authentication.value);
      && (r.Some? <==> exists k :: k in s.users && s.users[k].username == name)
      && (r.Some? ==> r.value.username == name && r.value in s.users.Values)
  {
    if !IsAuthenticated(ctx) then None
    else FindByUsername(s, PrincipalName(ctx.authentication.value))
  }

  /** The session belongs to a stored user who holds the role named `role`. */
  ghost predicate SessionUserHasRole(ctx: SecurityContext, s: Store, role: string) {
    && IsAuthenticated(ctx)
    && (exists k :: k in s.users && s.users[k].username == PrincipalName(ctx.authentication.value)
          && Role(role) in s.users[k].roles)
  }

  /** `isAdmin()`: the current user exists and has the role "ADMIN". */
  function IsAdmin(ctx: SecurityContext, s: Store): (r: bool)
    requires Valid(s)
    ensures r <==> SessionUserHasRole(ctx, s, "ADMIN")
  {
    var user := CurrentUser(ctx, s);
    user.Some? && HasRole(user.value, "ADMIN")
  }

  /** `isEventOrganizer()`: the current user exists and has the role "ORGANIZER". */
  function IsEventOrganizer(ctx: SecurityContext, s: Store): (r: bool)
    requires Valid(s)
    ensures r <==> SessionUserHasRole(ctx, s, "ORGANIZER")
  {
    var user := CurrentUser(ctx, s);
    user.Some? && HasRole(user.value, "ORGANIZER")
  }

  /** The authority names the context's authentication carries. */
  function ContextAuthorities(ctx: SecurityContext): seq<string> {
    match ctx.authentication
    case Some(UsernamePasswordToken(_, _, auths, _)) => auths
    case _ => []
  }

  /** `authenticate(User u)`: loads the principal for `u`'s username and puts
      an authenticated token for it into the context.  When loading throws,
      the context is left as it was.  On success the session belongs to the
      loaded user, and until the table changes the admin and organizer
      checks agree with the authorities granted at login. */
  method Authenticate(ctx: SecurityContext, s: Store, u: User) returns (ctx': SecurityContext, err: Option<ServiceError>)
    requires Valid(s)
    ensures err.Some? ==> ctx' == ctx
    ensures err == Some(UsernameNotFound) <==>
      forall k :: k in s.users ==> s.users[k].username != u.username && s.users[k].email != u.username
    ensures err == Some(DataAccess(IncorrectResultSize)) <==> FindByUsernameOrEmail(s, u.username, u.username).NotUnique?
    ensures err.None? <==> FindByUsernameOrEmail(s, u.username, u.username).Found?
    ensures err.None? ==> var found := FindByUsernameOrEmail(s, u.username, u.username).user;
      && (exists d: UserDetails :: ctx' == SecurityContext(Some(UsernamePasswordToken(d, None, d.authorities, true)))
                      && DescribesUser(d, found))
      && IsAuthenticated(ctx')
      && CurrentUser(ctx', s) == Some(found)
      && (IsAdmin(ctx', s) <==> "ADMIN" in ContextAuthorities(ctx'))
      && (IsEventOrganizer(ctx', s) <==> "ORGANIZER" in ContextAuthorities(ctx'))
    ensures err.None? && UsernameExists(s, u.username) ==> CurrentUser(ctx', s) == FindByUsername(s, u.username)
  {
    var loaded := LoadUserByUsername(s, u.username);
    match loaded
    case Failure(e) =>
      ctx' := ctx;
      err := Some(e);
    case Success(details) =>
      ctx' := SecurityContext(Some(UsernamePasswordToken(details, None, details.authorities, true)));
      err := None;
      var found := FindByUsernameOrEmail(s, u.username, u.username).user;
      var k :| k in s.users && s.users[k] == found;
      FindByUsernameOfStored(s, k);
  }

  /** A user who has just registered can log in with the password they
      registered with, provided the encoder accepts its own encodings. */
  lemma RegisterThenLogin(s: Store, u: User, encoder: PasswordEncoder, now: Instant)
    requires Valid(s) && AcceptsOwnEncoding(encoder)
    requires Register(s, u, encoder, now).Success?
    ensures AuthenticateLogin(Register(s, u, encoder, now).value.store, LoginForm(u.username, u.password), encoder) == Success(true)
  {
  }

  /** A just-registered user who submits any other password is refused,
      provided the encoder matches no password against another's encoding. */
  lemma RegisterThenWrongPassword(s: Store, u: User, encoder: PasswordEncoder, now: Instant, other: string)
    requires Valid(s) && RejectsOtherPasswords(encoder) && other != u.password
    requires Register(s, u, encoder, now).Success?
    ensures AuthenticateLogin(Register(s, u, encoder, now).value.store, LoginForm(u.username, other), encoder) == Success(false)
  {
  }

  /** With an encoder that never returns its input, registration never
      stores the submitted plaintext password. */
  lemma RegisterHidesPlaintext(s: Store, u: User, encoder: PasswordEncoder, now: Instant)
    requires Valid(s) && NeverIdentity(encoder)
    requires Register(s, u, encoder, now).Success?
    ensures Register(s, u, encoder, now).value.user.password != u.password
  {
  }

  /** Registering a new user whose username or email is already taken fails
      with the duplicate-identity error. */
  lemma RegisterRejectsTakenIdentity(s: Store, u: User, encoder: PasswordEncoder, now: Instant)
    requires Valid(s) && u.id.None?
    requires UsernameExists(s, u.username) || UserEmailExists(s, u.email)
    ensures Register(s, u, encoder, now) == Failure(DataAccess(DuplicateIdentity))
  {
  }

  /** On an empty table every registration succeeds, and the new row takes
      the first IDENTITY id. */
  lemma FirstRegistrationSucceeds(u: User, encoder: PasswordEncoder, now: Instant)
    ensures Register(Empty(), u, encoder, now).Success?
    ensures Register(Empty(), u, encoder, now).value.user.id == Some(1)
    ensures Register(Empty(), u, encoder, now).value.store.users.Keys == {1}
  {
  }

  /** `currentUser()` reads the table afresh: once the signed-in user's row
      is saved anew, the session sees the saved record, roles included. */
  lemma CurrentUserSeesLatestSave(ctx: SecurityContext, s: Store, v: User)
    requires Valid(s) && IsAuthenticated(ctx)
    requires Save(s, v).Success?
    requires v.username == PrincipalName(ctx.authentication.value)
    ensures CurrentUser(ctx, Save(s, v).value.store) == Some(Save(s, v).value.user)
  {
  }

  /** An empty or anonymous context has no current user and no privilege. */
  lemma AnonymousSessionHasNoPrivileges(ctx: SecurityContext, s: Store)
    requires Valid(s)
    requires ctx.authentication.None? || ctx.authentication.value.AnonymousToken?
    ensures CurrentUser(ctx, s) == None && !IsAdmin(ctx, s) && !IsEventOrganizer(ctx, s)
  {
  }
}

=== FILE: user_service_stub.dfy ===
/** services/UserServiceStubImpl.java: the stand-in user service.  Its
    `findById` and `deleteById` are the repository's `findOne` and `delete`
    (`UserStore.FindById`, `UserStore.DeleteById`); what it adds is modelled
    here: a raw save for create and edit, a `registerUser` that does
    nothing, and equality checks in place of password verification. */
module UserServiceStub {
  import opened Wrappers
  import opened JavaStrings
  import opened Users
  import opened UserStore
  import opened Security
  import UserServiceImpl

  /** `authenticate(username, password)`: the sample check compares the
      username with the password, null-safely. */
  function Authenticate(username: Option<string>, password: Option<string>): (r: bool)
    ensures r <==> username == password
  {
    ObjectsEquals(username, password)
  }

  /** `twoPasswordMatch(password, rePassword)`: null-safe equality. */
  function TwoPasswordMatch(password: Option<string>, rePassword: Option<string>): (r: bool)
    ensures r <==> password == rePassword
  {
    ObjectsEquals(password, rePassword)
  }

  /** `twoPasswordMatch` is an equivalence: reflexive, symmetric and transitive. */
  lemma TwoPasswordMatchIsEquivalence(p: Option<string>, q: Option<string>, t: Option<string>)
    ensures TwoPasswordMatch(p, p)
    ensures TwoPasswordMatch(p, q) == TwoPasswordMatch(q, p)
    ensures TwoPasswordMatch(p, q) && TwoPasswordMatch(q, t) ==> TwoPasswordMatch(p, t)
  {
  }

  /** `registerUser(u)` has an empty body: no row appears or changes. */
  function RegisterUser(s: Store, u: User): (r: Store)
    ensures r == s
    ensures forall k :: FindById(r, k) == FindById(s, k)
  {
    s
  }

  /** `create(u)`: saves `u` exactly as given, apart from the id the table
      assigns: no password encoding, no forced activation, no creation time. */
  function Create(s: Store, u: User): (r: Result<Saved, DataAccessError>)
    requires Valid(s)
    ensures r.Failure? <==> Conflicts(s, u, TargetId(s, u))
    ensures r.Failure? ==> r.error == DuplicateIdentity
    ensures r.Success? ==>
      && Valid(r.value.store)
      && (forall f :: f != Id ==> Getter(r.value.user, f) == Getter(u, f))
      && r.value.user.id == Some(TargetId(s, u))
      && FindById(r.value.store, TargetId(s, u)) == Some(r.value.user)
      && r.value.store.users.Keys == s.users.Keys + {TargetId(s, u)}
      && (forall j :: j in s.users && j != TargetId(s, u) ==> r.value.store.users[j] == s.users[j])
  {
    Save(s, u)
  }

  /** `edit(u)`: the same raw save as `create`. */
  function Edit(s: Store, u: User): (r: Result<Saved, DataAccessError>)
    requires Valid(s)
    ensures r == Create(s, u)
  {
    Save(s, u)
  }

  /** The stub's `create` and the real `register` accept and reject the same
      users and write the same row; the records differ only in what
      `register` prepares: the encoded password, the active flag and the
      creation time. */
  lemma CreateVersusRegister(s: Store, u: User, encoder: PasswordEncoder, now: Instant)
    requires Valid(s)
    ensures Create(s, u).Success? <==> UserServiceImpl.Register(s, u, encoder, now).Success?
    ensures Create(s, u).Success? ==>
      var raw := Create(s, u).value.user;
      var registered := UserServiceImpl.Register(s, u, encoder, now).value.user;
      && raw.id == registered.id
      && raw.password == u.password && registered.password == encoder.encode(u.password)
      && raw.isActive == u.isActive && registered.isActive
      && raw.createTime == u.createTime && registered.createTime == now
      && registered == raw.(password := encoder.encode(u.password), isActive := true, createTime := now)
  {
  }
}

=== FILE: user_store.dfy ===
/** The `users` table as the services see it through their repository.
    UserRepository.java is not part of this model: its calls are modelled
    from the Spring Data contract they follow (`findOne`, `save`, `delete`,
    and the derived `findByUsername`, `findByEmail`, `findByUsernameOrEmail`
    queries, matching exactly) and from the column constraints of
    models/User.java (username and email are `unique`). */
module UserStore {
  import opened Wrappers
  import opened Users

  /** The stored rows by id, and the next value of the IDENTITY column. */
  datatype Store = Store(users: map<int, User>, nextId: int)

  /** The data-access exceptions the repository calls can raise. */
  datatype DataAccessError =
    | DuplicateIdentity    // a unique constraint on username or email is violated
    | IncorrectResultSize  // a single-result query matched more than one row
    | EmptyResult          // `delete(id)` of an id with no row

  /** No two rows share a username. */
  predicate UniqueUsernames(s: Store) {
    forall j, k :: j in s.users && k in s.users && s.users[j].username == s.users[k].username ==> j == k
  }

  /** No two rows share an email. */
  predicate UniqueEmails(s: Store) {
    forall j, k :: j in s.users && k in s.users && s.users[j].email == s.users[k].email ==> j == k
  }

  /** What the database guarantees of the table: every row carries its own
      generated id, ids come from the IDENTITY sequence, and the unique
      constraints hold. */
  predicate Valid(s: Store) {
    && 1 <= s.nextId
    && (forall k :: k in s.users ==> 1 <= k < s.nextId && s.users[k].id == Some(k))
    && UniqueUsernames(s)
    && UniqueEmails(s)
  }

  /** The empty table. */
  function Empty(): (s: Store)
    ensures Valid(s)
    ensures forall k :: FindById(s, k) == None
  {
    Store(map[], 1)
  }

  /** The answer of a query that should match at most one row. */
  datatype Lookup = NoMatch | Found(user: User) | NotUnique

  /** A single-result query: the one row satisfying `p`, no row, or the
      report that more than one row matched. */
  function FindOne(s: Store, p: User -> bool): (r: Lookup)
    ensures r.NoMatch? <==> forall k :: k in s.users ==> !p(s.users[k])
    ensures r.NotUnique? <==> exists j, k :: j in s.users && k in s.users && j != k && p(s.users[j]) && p(s.users[k])
    ensures r.Found? ==> exists k :: k in s.users && s.users[k] == r.user && forall j :: j in s.users && p(s.users[j]) ==> j == k
    ensures r.Found? ==> p(r.user)
  {
    if forall k | k in s.users :: !p(s.users[k]) then NoMatch
    else if exists j, k | j in s.users && k in s.users :: j != k && p(s.users[j]) && p(s.users[k]) then NotUnique
    else
      var k :| k in s.users && p(s.users[k]);
      Found(s.users[k])
  }

  /** `findOne(id)`: the row with that id, or null. */
  function FindById(s: Store, id: int): (r: Option<User>)
    ensures r.Some? <==> id in s.users
    ensures r.Some? ==> r.value == s.users[id]
    ensures Valid(s) && r.Some? ==> r.value.id == Some(id)
  {
    if id in s.users then Some(s.users[id]) else None
  }

  /** `findByUsername(name)`: the row with that username, or null.  The
      unique constraint rules out a second match. */
  function FindByUsername(s: Store, name: string): (r: Option<User>)
    requires Valid(s)
    ensures r.Some? <==> exists k :: k in s.users && s.users[k].username == name
    ensures r.Some? ==> r.value.username == name && r.value.id.Some? && FindById(s, r.value.id.value) == r
  {
    match FindOne(s, (u: User) => u.username == name)
    case Found(u) => Some(u)
    case _ => None
  }

  /** `findByEmail(email)`: the row with that email, or null. */
  function FindByEmail(s: Store, email: string): (r: Option<User>)
    requires Valid(s)
    ensures r.Some? <==> exists k :: k in s.users && s.users[k].email == email
    ensures r.Some? ==> r.value.email == email && r.value.id.Some? && FindById(s, r.value.id.value) == r
  {
    match FindOne(s, (u: User) => u.email == email)
    case Found(u) => Some(u)
    case _ => None
  }

  /** `findByUsernameOrEmail(name, email)`: the row whose username is `name`
      or whose email is `email`.  Uniqueness of each column does not stop
      one row from matching by username and another by email. */
  function FindByUsernameOrEmail(s: Store, name: string, email: string): (r: Lookup)
    ensures r.NoMatch? <==> forall k :: k in s.users ==> s.users[k].username != name && s.users[k].email != email
    ensures r.NotUnique? <==>
      exists j, k :: j in s.users && k in s.users && j != k
        && (s.users[j].username == name || s.users[j].email == email)
        && (s.users[k].username == name || s.users[k].email == email)
    ensures r.Found? ==> (r.user.username == name || r.user.email == email) && r.user in s.users.Values
  {
    FindOne(s, (u: User) => u.username == name || u.email == email)
  }

  /** The row `save(u)` writes: an existing row when `u` carries the id of
      one, otherwise a new row with the next IDENTITY value. */
  function TargetId(s: Store, u: User): int {
    if u.id.Some? && u.id.value in s.users then u.id.value else s.nextId
  }

  /** Writing `u` into row `k` would give it the username or the email of
      another row. */
  predicate Conflicts(s: Store, u: User, k: int) {
    exists j :: j in s.users && j != k && (s.users[j].username == u.username || s.users[j].email == u.email)
  }

  /** The table after a successful save, and the record as saved. */
  datatype Saved = Saved(store: Store, user: User)

  /** `save(u)` (and `saveAndFlush(u)`): insert or update, failing when a
      unique constraint would be violated.  Only the written row changes. */
  function Save(s: Store, u: User): (r: Result<Saved, DataAccessError>)
    requires Valid(s)
    ensures r.Failure? <==> Conflicts(s, u, TargetId(s, u))
    ensures r.Failure? ==> r.error == DuplicateIdentity
    ensures r.Success? ==> var k := TargetId(s, u);
      && Valid(r.value.store)
      && r.value.user == u.(id := Some(k))
      && FindById(r.value.store, k) == Some(r.value.user)
      && r.value.store.users.Keys == s.users.Keys + {k}
      && (forall j :: j in s.users && j != k ==> r.value.store.users[j] == s.users[j])
    ensures r.Success? && u.id.Some? && u.id.value in s.users ==> r.value.user.id == u.id
    ensures r.Success? && (u.id.None? || u.id.value !in s.users) ==> r.value.user.id.value !in s.users
  {
    var k := TargetId(s, u);
    if Conflicts(s, u, k) then Failure(DuplicateIdentity)
    else
      var saved := u.(id := Some(k));
      var s' := Store(s.users[k := saved], if k == s.nextId then s.nextId + 1 else s.nextId);
      assert UniqueUsernames(s') by {
        forall i, j | i in s'.users && j in s'.users && s'.users[i].username == s'.users[j].username
          ensures i == j
        {
          if i != k && j != k {
            assert s'.users[i] == s.users[i] && s'.users[j] == s.users[j];
          }
        }
      }
      assert UniqueEmails(s') by {
        forall i, j | i in s'.users && j in s'.users && s'.users[i].email == s'.users[j].email
          ensures i == j
        {
          if i != k && j != k {
            assert s'.users[i] == s.users[i] && s'.users[j] == s.users[j];
          }
        }
      }
      Success(Saved(s', saved))
  }

  /** `delete(id)`: removes exactly that row; an id with no row raises
      `EmptyResult`. */
  function DeleteById(s: Store, id: int): (r: Result<Store, DataAccessError>)
    requires Valid(s)
    ensures r.Failure? <==> id !in s.users
    ensures r.Failure? ==> r.error == EmptyResult
    ensures r.Success? ==>
      && Valid(r.value)
      && r.value.users.Keys == s.users.Keys - {id}
      && r.value.nextId == s.nextId
      && FindById(r.value, id) == None
      && forall j :: j in r.value.users ==> r.value.users[j] == s.users[j]
  {
    if id in s.users then Success(Store(s.users - {id}, s.nextId)) else Failure(EmptyResult)
  }

  /** Looking a stored user up by its own username finds that user. */
  lemma FindByUsernameOfStored(s: Store, k: int)
    requires Valid(s) && k in s.users
    ensures FindByUsername(s, s.users[k].username) == Some(s.users[k])
  {
  }
}

=== FILE: wrappers.dfy ===
/** Failure-carrying datatypes shared by the whole model.
    `Option` stands for a Java reference that may be null; `Result` for a call
    that either returns a value or throws. */
module Wrappers {

  /** A Java reference: `None` is null. */
  datatype Option<+T> = None | Some(value: T)

  /** The outcome of a Java call: a returned value or a thrown exception. */
  datatype Result<+T, +E> = Success(value: T) | Failure(error: E)
}
